=== FILE: README.md ===
# Portfolio mockup gallery and translations — a Dafny model

This project models the three parts of a personal portfolio site that hold
state or decisions. The rest of the site is static markup.

- **The local mockup gallery** (`ImageUpload` component). It is a state
  machine over three pieces of state: the picked files, one preview URL per
  file, and the cursor of the image in the main pane. Its capacity is
  `maxImages`: 10 by default, and 8 as the Projects section passes it.
  Module `ImageUpload` in `image_upload.dfy`.
- **The mockup persistence hook** (`useProjectMockups`). It keeps the
  in-memory list of a project's mockups and the `isUploading`/`isLoading`
  flags in step with a storage bucket and a metadata table. Each remote call
  is represented by the reply it got: `Ok(value)` or `Err(error)`, passed in
  as a parameter. Each operation then becomes a deterministic transition. It
  also returns the remote calls it issued, and the store contents those calls
  leave behind. Module `ProjectMockups` in `project_mockups.dfy`.
- **The translation lookup** (`LanguageContext`). It holds the English and
  Vietnamese dictionaries, the provider's current language, and `t`, which
  falls back to the key itself. Module `Translations` in `language.dfy`.

Shared pieces live in `common.dfy` (module `Common`):

- `Option` and `Outcome`.
- The browser `File` record.
- JavaScript's order-preserving `filter` and `slice(0, n)`. A negative `n`
  in `slice` counts from the end.

`decimal.dfy` (module `Decimal`) renders a clock reading in decimal, the way
a template literal renders `Date.now()`. It also proves that rendering can be
read back.

Behaviour of the code worth noting:

- `uploadMockups` uses `Promise.all`, so new mockups are appended in the
  order the files were given, not in completion order.
- `uploadMockups` has no busy guard. A second upload while `isUploading` is
  true is not rejected, so the model does not reject it either.
- `image/jpg` is accepted alongside `image/png` and `image/jpeg`.
- After a removal the cursor is clamped by the new length only. The cursor is
  not decremented when an earlier image is removed, unless it was on the
  last image. `RemoveBeforeCursorShowsNext` and `RemoveBeforeLastKeepsShown`
  state what the pane then shows.
- `uploadMockups` stores every file it is given. It maps over all of them
  and applies no type or capacity filter of its own; that filter exists
  only in the `ImageUpload` component, which never calls the hook.
  `NonImageFileIsStored` shows a plain text file going through.
- The Projects section passes the CMS summary sentence itself to `t` in
  place of a key, so it is shown as written in both languages. Project
  roles are rendered without `t`; the CMS card therefore shows the raw key
  `projects.cms.role`.

## Model

| member | source | states |
|---|---|---|
| ImageUpload.InitialValid | src/components/ui/image-upload.tsx:19-21 | the starting gallery satisfies the gallery invariant for any non-negative capacity |
| ImageUpload.Initial | src/components/ui/image-upload.tsx:19-21 | on first render there are no images, no preview URLs, and the cursor is 0 |
| ImageUpload.AcceptedTypesExactly | src/components/ui/image-upload.tsx:27-29 | the type filter accepts exactly `image/png`, `image/jpeg` and `image/jpg`; the `startsWith('image/')` test adds nothing |
| ImageUpload.ValidFiles | src/components/ui/image-upload.tsx:27-29 | every file kept has an accepted type, and a file is kept exactly when it was a candidate with an accepted type |
| ImageUpload.ValidFilesConcat | src/components/ui/image-upload.tsx:27-29 | filtering keeps the relative order of the candidates: filtering a concatenation filters each part |
| Common.Filter | src/components/ui/image-upload.tsx:27-29 | `Array.filter` never lengthens its input, and keeps only elements that pass the test and were in the input |
| Common.FilterMembership | src/components/ui/image-upload.tsx:27-29 | an element is in the filtered array exactly when it was in the input and passes the test |
| Common.FilterConcat | src/components/ui/image-upload.tsx:27-29 | `Array.filter` distributes over concatenation, so kept elements stay in input order |
| Common.FilterKeepsAll | src/components/ui/image-upload.tsx:27-29 | when every element passes the test, `filter` returns the array unchanged |
| Common.SliceTo | src/components/ui/image-upload.tsx:31-32 | `slice(0, end)` returns a prefix: `min(end, len)` elements for `end >= 0`, `max(len + end, 0)` for `end < 0` |
| ImageUpload.FilesToAdd | src/components/ui/image-upload.tsx:31-32 | the files added are a prefix of the valid files: `min(valid, slots)` of them when slots remain, and `max(valid + slots, 0)` when the gallery is already over capacity |
| ImageUpload.PreviewUrls | src/components/ui/image-upload.tsx:40 | one object URL per added file, in the same order |
| ImageUpload.HandleFileSelect | src/components/ui/image-upload.tsx:24-44 | no file list means no change; the cursor never moves; old images and URLs stay as a prefix; both sequences grow by the same count; each new image is a candidate with an accepted type, in candidate order; the capacity bound is kept; exactly `min(valid, maxImages - count)` files are added; each new URL is the object URL of its image |
| ImageUpload.OverfullGalleryStillAdds | src/components/ui/image-upload.tsx:31-32 | with more images than `maxImages`, the negative slot count makes `slice` still admit files |
| ImageUpload.ExceptIndex | src/components/ui/image-upload.tsx:47-48 | the index-based filter drops exactly position `index` and keeps the others in order; an out-of-range index changes nothing |
| ImageUpload.RemoveImage | src/components/ui/image-upload.tsx:46-65 | element `index` leaves both sequences, the others stay in order, and an out-of-range index changes neither; the cursor is 0 on an empty gallery, lies in range when it was non-negative, stays put when it is still in range, and moves to the last image when it fell off the end |
| ImageUpload.RemoveBeforeCursorShowsNext | src/components/ui/image-upload.tsx:59-64 | when the cursor is not on the last image, removing an image before it leaves the cursor unchanged, so the pane then shows the image that followed |
| ImageUpload.RemoveBeforeLastKeepsShown | src/components/ui/image-upload.tsx:59-64 | when the cursor is on the last image, removing an earlier one moves the cursor back by one, so the pane keeps showing the same image |
| ImageUpload.JsRem | src/components/ui/image-upload.tsx:68-72 | JavaScript `%`: the dividend is the truncated quotient times the divisor plus the remainder, and the remainder takes the dividend's sign and stays within the divisor's magnitude |
| ImageUpload.NextImage | src/components/ui/image-upload.tsx:67-69 | from an in-range cursor, next moves to the following image and wraps from the last image to the first; the images are unchanged |
| ImageUpload.PrevImage | src/components/ui/image-upload.tsx:71-73 | from an in-range cursor, previous moves to the preceding image and wraps from the first image to the last; the images are unchanged |
| ImageUpload.NextPrevInverse | src/components/ui/image-upload.tsx:67-73 | next and previous undo each other on any non-empty gallery with an in-range cursor |
| ImageUpload.SelectThumbnail | src/components/ui/image-upload.tsx:171-176 | a thumbnail click sets the cursor to that thumbnail's index and changes no image or URL |
| ImageUpload.OfferedControls | src/components/ui/image-upload.tsx:137-176 | the arrows and the thumbnail strip are on screen only with at least two images, and each thumbnail names an existing image |
| ImageUpload.StepPreservesValid | src/components/ui/image-upload.tsx:24-73 | every visitor action whose control is on screen keeps the invariant: equal lengths, capacity bound, accepted types only, cursor on an image or 0 when empty |
| ImageUpload.RunPreservesValid | src/components/ui/image-upload.tsx:24-73 | the invariant holds after any sequence of visitor actions |
| ImageUpload.ProjectsGalleryStaysValid | src/components/Projects.tsx:191-195 | the RMS card's gallery, created with capacity 8, keeps the gallery invariant (so at most eight images) through any visitor actions |
| Decimal.Render | src/hooks/useProjectMockups.ts:41 | the rendered clock reading is a non-empty run of digits without a leading zero |
| Decimal.RenderRoundTrip | src/hooks/useProjectMockups.ts:41 | reading the rendered digits back gives the clock reading |
| Decimal.RenderInjective | src/hooks/useProjectMockups.ts:41 | different clock readings render differently |
| ProjectMockups.StorageKey | src/hooks/useProjectMockups.ts:41 | the storage key begins with `projectId/` and ends with `_` followed by the file name |
| ProjectMockups.StorageKeyMiddle | src/hooks/useProjectMockups.ts:41 | the clock reading's digits sit between the project prefix and the file name |
| ProjectMockups.StorageKeyDistinguishesTimes | src/hooks/useProjectMockups.ts:41 | the same file name in the same project gets different keys at different clock readings |
| ProjectMockups.FetchMockups | src/hooks/useProjectMockups.ts:19-35 | one select on the project; the rows replace the list, a `null` result gives the empty list, and an error leaves the list alone and is not re-thrown; `isLoading` ends false and `isUploading` is untouched |
| ProjectMockups.FetchIdempotent | src/hooks/useProjectMockups.ts:28-29 | a refetch that gets the same answer changes nothing more |
| ProjectMockups.Initial | src/hooks/useProjectMockups.ts:15-17 | the hook starts with an empty list and both `isUploading` and `isLoading` false |
| ProjectMockups.OnProjectId | src/hooks/useProjectMockups.ts:109-113 | an empty project id triggers no call and no change; a non-empty one triggers a fetch |
| ProjectMockups.MountLoadsRows | src/hooks/useProjectMockups.ts:15-17 | the hook starts empty and idle; on mount with a project id the first load leaves exactly the returned rows with both flags down, and an error or `null` leaves it empty |
| ProjectMockups.UploadOne | src/hooks/useProjectMockups.ts:40-65 | per file, the upload comes first under the file's key; the insert is made only after a successful upload and records the project, the file name and the returned path; the file fails with the upload's error or else the insert's |
| ProjectMockups.All | src/hooks/useProjectMockups.ts:67 | `Promise.all` succeeds exactly when every file succeeded, returns the values in input order, and otherwise fails with the error of a failed file |
| ProjectMockups.Settle | src/hooks/useProjectMockups.ts:40-67 | the awaited batch yields one row per file exactly when every file's upload and insert succeeded, each row describing its file (project, name, stored path, size, type); otherwise it fails with the upload or insert error of some file |
| ProjectMockups.Persist | src/hooks/useProjectMockups.ts:44-61 | every successfully uploaded object and inserted row is in the store afterwards, nothing already there is removed, and nothing else is added |
| ProjectMockups.UploadMockups | src/hooks/useProjectMockups.ts:37-76 | `isUploading` ends false; the call succeeds exactly when every upload and insert did; on success the list becomes the old list followed by one mockup per file in file order, each with the right project, name, path, size, type, id and upload time; on failure the list is unchanged and the error is a failed file's; the store only grows, every uploaded object and every inserted row stays even after a failure, every new mockup's row is in the table, and the store gains only objects whose upload succeeded and rows describing a file |
| ProjectMockups.UploadCallOrder | src/hooks/useProjectMockups.ts:40-65 | for each file the storage upload is the first call; an insert is only ever the second call, after a successful upload, and carries the project, file name, size, type and returned path |
| ProjectMockups.PartialFailureKeepsStoredObject | src/hooks/useProjectMockups.ts:40-72 | when the second of two files fails, the call fails and the list is unchanged, yet both uploaded objects remain stored and the first file's inserted row stays in the table |
| ProjectMockups.NonImageFileIsStored | src/hooks/useProjectMockups.ts:40 | a plain text file is uploaded and recorded like an image: the hook filters nothing |
| ProjectMockups.WithoutId | src/hooks/useProjectMockups.ts:95 | an entry stays exactly when it was there and has a different id |
| ProjectMockups.WithoutIdConcat | src/hooks/useProjectMockups.ts:95 | removal by id keeps the other entries in their order |
| ProjectMockups.WithoutAbsentId | src/hooks/useProjectMockups.ts:95 | removing an id no entry carries leaves the list unchanged |
| ProjectMockups.DeleteMockup | src/hooks/useProjectMockups.ts:78-100 | the storage removal comes first; if it fails, no database delete is attempted and nothing changes; if the database delete fails, the list and rows are unchanged but the object is gone; the call succeeds exactly when both did, and then the list is the old list with the entries carrying that id filtered out, the others in order, and exactly the rows with that id are gone; the flags are untouched |
| ProjectMockups.DeleteKeepsOthersInOrder | src/hooks/useProjectMockups.ts:95 | after a successful delete, the list is the entries before and after the deleted one, in order |
| Translations.InitialShowsEnglish | src/contexts/LanguageContext.tsx:153-157 | the provider starts in English: on first render a defined key shows its English text and any other key shows itself |
| Translations.InitialProvider | src/contexts/LanguageContext.tsx:153 | the provider starts in English |
| Translations.SetLanguage | src/contexts/LanguageContext.tsx:153 | `setLanguage` makes the given language current |
| Translations.Lookup | src/contexts/LanguageContext.tsx:155-157 | the lookup with its fallback to the key gives either the key itself or a non-empty dictionary text for that key; a present key with non-empty text gives that text, and a missing key or one mapped to the empty string gives the key |
| Translations.T | src/contexts/LanguageContext.tsx:155-157 | `t` returns the current dictionary's text for a defined key and the key itself for an undefined one |
| Translations.ValuesNonEmpty | src/contexts/LanguageContext.tsx:11-136 | no dictionary maps a key to the empty string, so the fallback to the key applies to missing keys only |
| Translations.SameKeys | src/contexts/LanguageContext.tsx:11-136 | the English and Vietnamese dictionaries define exactly the same keys |
| Translations.DefinedInBoth | src/contexts/LanguageContext.tsx:11-136 | a key is defined in one language exactly when it is defined in the other |
| Translations.SwitchBack | src/contexts/LanguageContext.tsx:153-157 | switching to another language and back restores every translation |
| Translations.SummaryTextShowsUnchanged | src/components/Projects.tsx:34 | the CMS summary sentence, passed to `t` in place of a key, is shown unchanged in both languages |

## Left out

- The row `insert(...).select().single()` reads back is taken to echo the
  columns that were sent (project id, file name, stored path, size and MIME
  type), plus an id and an upload time the database assigns. The
  `Describes` clauses of `ProjectMockups.Settle` and
  `ProjectMockups.UploadMockups` rest on this.
- Remote calls: the storage upload, removal and public-URL calls, and the
  database select, insert and delete, are foreign calls. Each is represented
  by its reply, or by a call record in the result. A successful reply is
  taken to mean the call took effect on the modelled store.
- `getImageUrl` is a single foreign call with no logic of its own, so it is
  not modelled.
- The database orders rows by `uploaded_at`. The model takes the returned
  rows as given and does not prove them sorted.
- ProjectMockups.All: the error re-thrown is that of the first failing file
  in input order. In the running code it is the first rejection to settle,
  which depends on timing. The contract states only that it is the error of
  some failed file.
- ProjectMockups.UploadMockups: `Promise.all` rejects at the first failed
  file, and the `catch`/`finally` then re-throw and lower `isUploading`
  while the other files' upload and insert calls keep running. The result
  joins two moments: `r.state` and `r.outcome` are the hook when the call
  returns, while `r.backend` is the store after every per-file call has
  settled, which can be after the call has rejected and `isUploading` is
  false.
- Concurrency: calls for different files may interleave, so the model keeps
  each file's calls separate. Overlapping operations on one hook instance are
  not modelled; `setMockups(prev => …)` is treated as running once, at the
  end of the operation.
- `Date.now()` is a parameter (`FileReplies.now`). `Decimal.Render` covers
  the whole numbers a millisecond clock yields; JavaScript's exponent
  notation only starts at 10^21.
- `URL.createObjectURL` is a parameter (`objectUrl: File -> string`), so
  equal `File` values get the same URL, whereas the browser creates a fresh
  URL on every call. No proof depends on URLs being distinct or equal.
  `revokeObjectURL` only frees browser memory and is not modelled.
- Drag-and-drop handlers only forward the dropped file list to
  `handleFileSelect`.
- `onImagesChange`: the callback receives the new image list. Its only
  caller stores the list and never reads it, so it is not modelled.
- ImageUpload.NextImage: on an empty gallery the source computes `NaN`. The
  model requires a non-empty gallery because the arrows are rendered only
  when there is more than one image.
- ImageUpload.PrevImage: requires a non-empty gallery, for the same reason
  as `NextImage`.
- Translations.T: a key inherited through JavaScript's prototype chain (such
  as `toString`) would return a non-text value in the source. The model
  treats every key outside the dictionary as missing.
- `useLanguage` throws when used outside the provider. This is React context
  plumbing, and so are JSX rendering and styling.
- The static content sections, `Header.scrollToSection`, `AuthButton` and
  `LanguageToggle` hold no state or decisions worth modelling.

=== FILE: common.dfy ===
/**
 Shared vocabulary of the portfolio's mockup feature: optional values, the
 outcome of a remote call, the browser's File record, and the two JavaScript
 array operations the feature relies on (`filter` and `slice(0, n)`).
 */
module Common {

  /** A value that may be absent (JavaScript `null`). */
  datatype Option<+T> = None | Some(value: T)

  /** The opaque error a remote store reports. */
  datatype StoreError = StoreError(message: string)

  /** What one remote call answered: a value, or an error. */
  datatype Outcome<+T> = Ok(value: T) | Err(error: StoreError)

  /** A browser File: its name, its declared MIME type and its size in bytes. */
  datatype File = File(name: string, mimeType: string, size: nat)

  /** `s.filter(keep)`: the elements of `s` that satisfy `keep`, in order. */
  function Filter<T>(s: seq<T>, keep: T -> bool): (r: seq<T>)
    ensures |r| <= |s|
    ensures forall i :: 0 <= i < |r| ==> keep(r[i])
    ensures forall x :: x in r ==> x in s
  {
    if |s| == 0 then []
    else if keep(s[0]) then [s[0]] + Filter(s[1..], keep)
    else Filter(s[1..], keep)
  }

  /** An element survives the filter exactly when it was there and is kept. */
  lemma {:induction false} FilterMembership<T>(s: seq<T>, keep: T -> bool, x: T)
    ensures x in Filter(s, keep) <==> x in s && keep(x)
  {
    if |s| > 0 {
      FilterMembership(s[1..], keep, x);
      assert s == [s[0]] + s[1..];
    }
  }

  /** Filtering commutes with concatenation, so the relative order of the
      kept elements is the order they had in the input. */
  lemma {:induction false} FilterConcat<T>(a: seq<T>, b: seq<T>, keep: T -> bool)
    ensures Filter(a + b, keep) == Filter(a, keep) + Filter(b, keep)
  {
    if |a| == 0 {
      assert a + b == b;
    } else {
      assert (a + b)[1..] == a[1..] + b;
      FilterConcat(a[1..], b, keep);
    }
  }

  /** When every element is kept, the filter is the identity. */
  lemma {:induction false} FilterKeepsAll<T>(s: seq<T>, keep: T -> bool)
    requires forall i :: 0 <= i < |s| ==> keep(s[i])
    ensures Filter(s, keep) == s
  {
    if |s| > 0 {
      FilterKeepsAll(s[1..], keep);
      assert s == [s[0]] + s[1..];
    }
  }

  /** JavaScript `s.slice(0, end)`: a negative `end` counts back from the end
      of the array (and stops at 0); an `end` past the length stops at it. */
  function SliceTo<T>(s: seq<T>, end: int): (r: seq<T>)
    ensures r <= s
    ensures 0 <= end ==> |r| == if end < |s| then end else |s|
    ensures end < 0 ==> |r| == if |s| + end < 0 then 0 else |s| + end
  {
    if end < 0 then (if |s| + end < 0 then [] else s[..|s| + end])
    else if end < |s| then s[..end]
    else s
  }
}

=== FILE: decimal.dfy ===
/**
 Decimal rendering of a non-negative integer, as a JavaScript template literal
 renders `Date.now()` (a whole number of milliseconds, far below 10^21, so it
 is printed in plain positional notation), together with its inverse.
 */
module Decimal {

  predicate IsDigit(c: char) {
    '0' <= c <= '9'
  }

  function DigitChar(d: nat): (c: char)
    requires d < 10
    ensures IsDigit(c)
  {
    "0123456789"[d]
  }

  function DigitValue(c: char): (d: nat)
    requires IsDigit(c)
    ensures d < 10
  {
    (c as int - '0' as int) as nat
  }

  lemma DigitRoundTrip(d: nat)
    requires d < 10
    ensures DigitValue(DigitChar(d)) == d
  {
  }

  /** The text `${n}` for a whole number `n >= 0`. */
  function Render(n: nat): (r: string)
    ensures 1 <= |r|
    ensures forall i :: 0 <= i < |r| ==> IsDigit(r[i])
    ensures r[0] == '0' ==> n == 0
  {
    if n < 10 then [DigitChar(n)]
    else Render(n / 10) + [DigitChar(n % 10)]
  }

  /** The number a string of digits denotes (most significant digit first). */
  function Value(s: string): nat
    requires forall i :: 0 <= i < |s| ==> IsDigit(s[i])
  {
    if |s| == 0 then 0
    else 10 * Value(s[..|s| - 1]) + DigitValue(s[|s| - 1])
  }

  /** Reading back what `Render` printed gives the original number. */
  lemma {:induction false} RenderRoundTrip(n: nat)
    ensures Value(Render(n)) == n
  {
    var r := Render(n);
    if n < 10 {
      DigitRoundTrip(n);
      assert r[..0] == [];
    } else {
      RenderRoundTrip(n / 10);
      DigitRoundTrip(n % 10);
      assert r[..|r| - 1] == Render(n / 10);
    }
  }

  /** Different numbers are rendered as different strings. */
  lemma RenderInjective(m: nat, n: nat)
    requires Render(m) == Render(n)
    ensures m == n
  {
    RenderRoundTrip(m);
    RenderRoundTrip(n);
  }
}

=== FILE: image_upload.dfy ===
/**
 The local mockup gallery of the `ImageUpload` component: the files the
 visitor picked, one preview URL per file, and the cursor of the image shown
 in the main pane. Files are added through the picker or by drag and drop,
 removed one at a time, and browsed with previous/next arrows or a thumbnail
 strip.
 */
module ImageUpload {
  import opened Common

  /** The capacity the Projects section passes for the RMS project card. */
  const ProjectsMaxImages: int := 8

  /** The component's three pieces of state. `previewUrls` are opaque
      object URLs, one per entry of `images`. */
  datatype Gallery = Gallery(images: seq<File>, previewUrls: seq<string>, cursor: int)

  /** The state on first render. */
  function Initial(): (g: Gallery)
    ensures |g.images| == 0 && |g.previewUrls| == 0 && g.cursor == 0
  {
    Gallery([], [], 0)
  }

  /** What the component keeps true between events: parallel sequences of
      equal length within the capacity, only accepted image types, and a
      cursor on an existing image (or 0 when there is none). */
  predicate Valid(g: Gallery, maxImages: int) {
    && |g.images| == |g.previewUrls|
    && |g.images| <= maxImages
    && (if |g.images| == 0 then g.cursor == 0 else 0 <= g.cursor < |g.images|)
    && forall i :: 0 <= i < |g.images| ==> IsAcceptedType(g.images[i].mimeType)
  }

  lemma InitialValid(maxImages: int)
    requires 0 <= maxImages
    ensures Valid(Initial(), maxImages)
  {
  }

  // ---------------------------------------------------------------------
  // Adding files

  /** The type test of the file filter: the type starts with `image/` and is
      one of the three accepted MIME types. */
  predicate IsAcceptedType(t: string) {
    "image/" <= t && (t == "image/png" || t == "image/jpeg" || t == "image/jpg")
  }

  /** The `startsWith('image/')` test adds nothing: exactly the three listed
      types are accepted. */
  lemma AcceptedTypesExactly(t: string)
    ensures IsAcceptedType(t) <==> t in {"image/png", "image/jpeg", "image/jpg"}
  {
  }

  predicate Accepted(f: File) {
    IsAcceptedType(f.mimeType)
  }

  /** The candidates whose type is accepted, in the order they were given. */
  function ValidFiles(files: seq<File>): (r: seq<File>)
    ensures forall i :: 0 <= i < |r| ==> IsAcceptedType(r[i].mimeType)
    ensures forall f :: f in r <==> f in files && IsAcceptedType(f.mimeType)
  {
    forall f ensures f in Filter(files, Accepted) <==> f in files && Accepted(f) {
      FilterMembership(files, Accepted, f);
    }
    Filter(files, Accepted)
  }

  /** Valid files are kept in their relative order: dropping the invalid ones
      from a concatenation drops them from each part. */
  lemma ValidFilesConcat(a: seq<File>, b: seq<File>)
    ensures ValidFiles(a + b) == ValidFiles(a) + ValidFiles(b)
  {
    FilterConcat(a, b, Accepted);
  }

  /** The files actually added: the valid ones cut to the remaining slots,
      with JavaScript's `slice` reading a negative count from the end. */
  function FilesToAdd(g: Gallery, files: seq<File>, maxImages: int): (r: seq<File>)
    ensures r <= ValidFiles(files)
    ensures 0 <= maxImages - |g.images| ==> |r| == Min(|ValidFiles(files)|, maxImages - |g.images|)
    ensures maxImages - |g.images| < 0 ==> |r| == Max(|ValidFiles(files)| + maxImages - |g.images|, 0)
  {
    SliceTo(ValidFiles(files), maxImages - |g.images|)
  }

  /** One object URL per file, in order. */
  function PreviewUrls(files: seq<File>, objectUrl: File -> string): (r: seq<string>)
    ensures |r| == |files|
    ensures forall i :: 0 <= i < |files| ==> r[i] == objectUrl(files[i])
  {
    seq(|files|, i requires 0 <= i < |files| => objectUrl(files[i]))
  }

  /** `handleFileSelect`: `files` is `None` when the browser hands over no
      file list; `objectUrl` stands for `URL.createObjectURL`. */
  function HandleFileSelect(g: Gallery, files: Option<seq<File>>, maxImages: int,
                            objectUrl: File -> string): (r: Gallery)
    ensures files.None? ==> r == g
    ensures r.cursor == g.cursor
    ensures g.images <= r.images && g.previewUrls <= r.previewUrls
    ensures |r.images| - |g.images| == |r.previewUrls| - |g.previewUrls|
    ensures forall i :: |g.images| <= i < |r.images| ==>
              files.Some? && r.images[i] in files.value && IsAcceptedType(r.images[i].mimeType)
    ensures files.Some? ==> r.images[|g.images|..] <= ValidFiles(files.value)
    ensures |g.images| <= maxImages ==> |r.images| <= maxImages
    ensures files.Some? && |g.images| <= maxImages ==>
              |r.images| - |g.images| == Min(|ValidFiles(files.value)|, maxImages - |g.images|)
    ensures |g.images| == |g.previewUrls| ==>
              forall i :: |g.images| <= i < |r.images| ==> r.previewUrls[i] == objectUrl(r.images[i])
  {
    match files
    case None => g
    case Some(fs) =>
      var toAdd := FilesToAdd(g, fs, maxImages);
      if |toAdd| > 0 then
        assert (g.images + toAdd)[|g.images|..] == toAdd;
        Gallery(g.images + toAdd, g.previewUrls + PreviewUrls(toAdd, objectUrl), g.cursor)
      else
        g
  }

  function Min(a: int, b: int): int {
    if a < b then a else b
  }

  function Max(a: int, b: int): int {
    if a < b then b else a
  }

  /** The negative-slot reading of `slice`: with the capacity already
      exceeded (a lowered `maxImages`), valid files are still added. */
  lemma OverfullGalleryStillAdds(objectUrl: File -> string)
    ensures var png := File("a.png", "image/png", 1);
            var g := Gallery([png, png, png], ["u", "u", "u"], 0);
            |HandleFileSelect(g, Some([png, png, png]), 1, objectUrl).images| == 4
  {
  }

  // ---------------------------------------------------------------------
  // Removing one image

  /** `s.filter((_, i) => i !== index)`. */
  function ExceptIndex<T>(s: seq<T>, index: int): (r: seq<T>)
    ensures 0 <= index < |s| ==> r == s[..index] + s[index + 1..]
    ensures !(0 <= index < |s|) ==> r == s
  {
    if |s| == 0 then []
    else if index == 0 then ExceptIndex(s[1..], index - 1)
    else [s[0]] + ExceptIndex(s[1..], index - 1)
  }

  /** `removeImage(index)`: drop entry `index` from both sequences and pull
      the cursor back onto the list if it fell off the end. */
  function RemoveImage(g: Gallery, index: int): (r: Gallery)
    ensures 0 <= index < |g.images| ==> r.images == g.images[..index] + g.images[index + 1..]
    ensures 0 <= index < |g.previewUrls| ==>
              r.previewUrls == g.previewUrls[..index] + g.previewUrls[index + 1..]
    ensures !(0 <= index < |g.images|) ==> r.images == g.images
    ensures !(0 <= index < |g.previewUrls|) ==> r.previewUrls == g.previewUrls
    ensures |r.previewUrls| == 0 ==> r.cursor == 0
    ensures 0 <= g.cursor && 0 < |r.previewUrls| ==> 0 <= r.cursor < |r.previewUrls|
    ensures 0 <= g.cursor < |r.previewUrls| ==> r.cursor == g.cursor
    ensures g.cursor >= |r.previewUrls| > 0 ==> r.cursor == |r.previewUrls| - 1
  {
    var images := ExceptIndex(g.images, index);
    var urls := ExceptIndex(g.previewUrls, index);
    var cursor :=
      if g.cursor >= |urls| && |urls| > 0 then |urls| - 1
      else if |urls| == 0 then 0
      else g.cursor;
    Gallery(images, urls, cursor)
  }

  /** Removing an image before the cursor, when the cursor is not on the
      last image, does not move the cursor back, so the main pane then shows
      the image that followed the one shown. */
  lemma RemoveBeforeCursorShowsNext(g: Gallery, maxImages: int, index: int)
    requires Valid(g, maxImages)
    requires 0 <= index < g.cursor < |g.images| - 1
    ensures RemoveImage(g, index).cursor == g.cursor
    ensures RemoveImage(g, index).images[g.cursor] == g.images[g.cursor + 1]
  {
  }

  /** When the cursor is on the last image, removing an earlier one pulls the
      cursor back by one, so the main pane keeps showing the same image. */
  lemma RemoveBeforeLastKeepsShown(g: Gallery, maxImages: int, index: int)
    requires Valid(g, maxImages)
    requires 0 <= index < g.cursor == |g.images| - 1
    ensures RemoveImage(g, index).cursor == g.cursor - 1
    ensures RemoveImage(g, index).images[g.cursor - 1] == g.images[g.cursor]
  {
  }

  // ---------------------------------------------------------------------
  // Browsing

  /** JavaScript `%`: the remainder takes the sign of the dividend. */
  function JsRem(a: int, n: int): (r: int)
    requires n > 0
    ensures 0 <= a ==> 0 <= r < n
    ensures a < 0 ==> -n < r <= 0
    ensures 0 <= a < n ==> r == a
    ensures n <= a < 2 * n ==> r == a - n
    ensures a == JsQuot(a, n) * n + r
  {
    if a < 0 then ModBounds(-a, n); -((-a) % n)
    else if a < 2 * n then ModOnce(a, n); a % n
    else ModBounds(a, n); a % n
  }

  /** JavaScript's quotient `Math.trunc(a / n)`, rounded toward zero. */
  function JsQuot(a: int, n: int): int
    requires n > 0
  {
    if a < 0 then -((-a) / n) else a / n
  }

  lemma ModOnce(a: int, n: int)
    requires 0 <= a < 2 * n
    ensures a < n ==> a % n == a
    ensures n <= a ==> a % n == a - n
  {
  }

  lemma ModBounds(a: int, n: int)
    requires 0 <= a && 0 < n
    ensures 0 <= a % n < n
  {
  }

  /** `nextImage`: one step forward, wrapping from the last image to the first. */
  function NextImage(g: Gallery): (r: Gallery)
    requires |g.previewUrls| > 0
    ensures r.images == g.images && r.previewUrls == g.previewUrls
    ensures 0 <= g.cursor < |g.previewUrls| ==>
              r.cursor == if g.cursor + 1 == |g.previewUrls| then 0 else g.cursor + 1
  {
    g.(cursor := JsRem(g.cursor + 1, |g.previewUrls|))
  }

  /** `prevImage`: one step back, wrapping from the first image to the last. */
  function PrevImage(g: Gallery): (r: Gallery)
    requires |g.previewUrls| > 0
    ensures r.images == g.images && r.previewUrls == g.previewUrls
    ensures 0 <= g.cursor < |g.previewUrls| ==>
              r.cursor == if g.cursor == 0 then |g.previewUrls| - 1 else g.cursor - 1
  {
    g.(cursor := JsRem(g.cursor - 1 + |g.previewUrls|, |g.previewUrls|))
  }

  /** Forward then back, or back then forward, returns to the same image. */
  lemma NextPrevInverse(g: Gallery)
    requires 0 <= g.cursor < |g.previewUrls|
    ensures PrevImage(NextImage(g)) == g
    ensures NextImage(PrevImage(g)) == g
  {
  }

  /** A thumbnail click selects that image; thumbnails exist for indexes of
      `previewUrls` only. */
  function SelectThumbnail(g: Gallery, index: int): (r: Gallery)
    requires 0 <= index < |g.previewUrls|
    ensures r.images == g.images && r.previewUrls == g.previewUrls
    ensures r.cursor == index
    ensures 0 <= r.cursor < |r.previewUrls| && r.previewUrls[r.cursor] == g.previewUrls[index]
  {
    g.(cursor := index)
  }

  // ---------------------------------------------------------------------
  // The component as a state machine

  /** What a visitor can do. */
  datatype Event =
    | Select(files: Option<seq<File>>)
    | Remove(index: int)
    | Next
    | Prev
    | Thumbnail(index: int)

  /** Whether the rendered component offers the control for `e`: the arrows
      and the thumbnail strip are shown only with more than one image. */
  predicate Offered(g: Gallery, e: Event) {
    match e
    case Select(_) => true
    case Remove(_) => true
    case Next => |g.previewUrls| > 1
    case Prev => |g.previewUrls| > 1
    case Thumbnail(i) => |g.previewUrls| > 1 && 0 <= i < |g.previewUrls|
  }

  /** The browsing controls are on screen only with at least two images, and
      each thumbnail names an existing image. */
  lemma OfferedControls(g: Gallery, e: Event)
    requires Offered(g, e)
    ensures e.Next? || e.Prev? || e.Thumbnail? ==> |g.previewUrls| > 1
    ensures e.Thumbnail? ==> 0 <= e.index < |g.previewUrls|
  {
  }

  function Step(g: Gallery, e: Event, maxImages: int, objectUrl: File -> string): Gallery
    requires Offered(g, e)
  {
    match e
    case Select(files) => HandleFileSelect(g, files, maxImages, objectUrl)
    case Remove(i) => RemoveImage(g, i)
    case Next => NextImage(g)
    case Prev => PrevImage(g)
    case Thumbnail(i) => SelectThumbnail(g, i)
  }

  /** Each offered event keeps the gallery valid. */
  lemma StepPreservesValid(g: Gallery, e: Event, maxImages: int, objectUrl: File -> string)
    requires Valid(g, maxImages) && Offered(g, e)
    ensures Valid(Step(g, e, maxImages, objectUrl), maxImages)
  {
  }

  /** Replays a sequence of events, ignoring any whose control is not on
      screen at that moment. */
  function Run(g: Gallery, events: seq<Event>, maxImages: int, objectUrl: File -> string): Gallery
    decreases |events|
  {
    if |events| == 0 then g
    else
      var g' := if Offered(g, events[0]) then Step(g, events[0], maxImages, objectUrl) else g;
      Run(g', events[1..], maxImages, objectUrl)
  }

  /** From a valid state, every run of visitor events stays valid: both
      sequences stay equal in length and within `maxImages`, every image has
      an accepted type, and the cursor stays on an image. */
  lemma {:induction false} RunPreservesValid(g: Gallery, events: seq<Event>, maxImages: int,
                                             objectUrl: File -> string)
    requires Valid(g, maxImages)
    ensures Valid(Run(g, events, maxImages, objectUrl), maxImages)
    decreases |events|
  {
    if |events| > 0 {
      var g' := if Offered(g, events[0]) then Step(g, events[0], maxImages, objectUrl) else g;
      if Offered(g, events[0]) {
        StepPreservesValid(g, events[0], maxImages, objectUrl);
      }
      RunPreservesValid(g', events[1..], maxImages, objectUrl);
    }
  }

  /** The RMS project card's gallery: from first render, through any visitor
      actions, it never holds more than eight images, all of accepted types,
      with the cursor on one of them. */
  lemma ProjectsGalleryStaysValid(events: seq<Event>, objectUrl: File -> string)
    ensures var g := Run(Initial(), events, ProjectsMaxImages, objectUrl);
            Valid(g, ProjectsMaxImages)
  {
    InitialValid(ProjectsMaxImages);
    RunPreservesValid(Initial(), events, ProjectsMaxImages, objectUrl);
  }
}

=== FILE: language.dfy ===
/**
 The site's English/Vietnamese text swap: two fixed dictionaries from
 translation keys to display text, the provider's current language, and the
 lookup `t` that falls back to the key itself.
 */
module Translations {

  datatype Language = En | Vi

  /** The dictionaries, written section by section as in the source (keys
      are `section.name`), each the union of its sections. */
  const EnglishNavigation: map<string, string> := map[
    "nav.about" := "About",
    "nav.experience" := "Experience",
    "nav.projects" := "Projects",
    "nav.skills" := "Skills",
    "nav.education" := "Education",
    "nav.contact" := "Contact"
  ]

  const EnglishHero: map<string, string> := map[
    "hero.title" := "IT Business Analyst",
    "hero.intro" := "Aspiring Business Analyst with hands-on experience in internal system projects (RMS, TMS, E-Contract). Passionate about bridging users and technology through requirement analysis, BRD/URD documentation, and UI/UX design with Figma.",
    "hero.viewLinkedIn" := "View LinkedIn",
    "hero.downloadCV" := "Download CV"
  ]

  const EnglishAbout: map<string, string> := map[
    "about.title" := "About Me",
    "about.shortTerm" := "Short Term",
    "about.shortTermDesc" := "Grow Business Analysis and coordination skills in complex IT projects",
    "about.longTerm" := "Long Term",
    "about.longTermDesc" := "Become Senior Business Analyst/Project Manager bridging business and technology",
    "about.keySkills" := "Key Skills: Requirements elicitation, BRD/URD, Blueprint, UI/UX design with Figma, Agile/Scrum"
  ]

  const EnglishExperience: map<string, string> := map[
    "experience.title" := "Experience",
    "experience.present" := "Present",
    "experience.delfi.role" := "IT Business Analyst",
    "experience.lcs.role" := "Business Analyst",
    "experience.lcs.desc1" := "Collect and clarify business requirements from stakeholders",
    "experience.lcs.desc2" := "Analyze business needs and propose solutions (BRD/URD/Blueprint)",
    "experience.lcs.desc3" := "Design UI mockups for web & mobile applications with Figma",
    "experience.lcs.desc4" := "Collaborate with clients & development teams to validate solutions"
  ]

  const EnglishProjects: map<string, string> := map[
    "projects.title" := "Projects",
    "projects.viewDetails" := "View Details",
    "projects.mockups.title" := "Project Mockups",
    "projects.cms.title" := "Contract Management System (CMS)",
    "projects.cms.company" := "Central Retail Vietnam",
    "projects.cms.role" := "Assistant Project Manager / BA",
    "projects.rms.title" := "RMS 2.0 – Repair & Maintenance System",
    "projects.rms.company" := "Suntory PepsiCo Vietnam",
    "projects.rms.summary" := "Multi-functional platform for MEM to handle repair/maintenance requests, QR code spare parts, SAP synchronization"
  ]

  const EnglishSkills: map<string, string> := map[
    "skills.title" := "Skills",
    "skills.tools" := "Tools & Technologies",
    "skills.business" := "Business Analysis"
  ]

  const EnglishEducation: map<string, string> := map[
    "education.title" := "Education",
    "education.university" := "HUTECH – Ho Chi Minh City University of Technology",
    "education.degree" := "Management Information Systems",
    "education.gpa" := "GPA 3.3/4.0"
  ]

  const EnglishContact: map<string, string> := map[
    "contact.title" := "Contact",
    "contact.subtitle" := "Let's collaborate on your next project",
    "contact.email" := "Email",
    "contact.phone" := "Phone",
    "contact.linkedin" := "LinkedIn"
  ]

  const EnglishSections: seq<map<string, string>> :=
    [EnglishNavigation, EnglishHero, EnglishAbout, EnglishExperience, EnglishProjects, EnglishSkills, EnglishEducation, EnglishContact]

  const English: map<string, string> := Union(EnglishSections)

  const VietnameseNavigation: map<string, string> := map[
    "nav.about" := "Giới thiệu",
    "nav.experience" := "Kinh nghiệm",
    "nav.projects" := "Dự án",
    "nav.skills" := "Kỹ năng",
    "nav.education" := "Học vấn",
    "nav.contact" := "Liên hệ"
  ]

  const VietnameseHero: map<string, string> := map[
    "hero.title" := "Chuyên viên phân tích nghiệp vụ CNTT",
    "hero.intro" := "Business Analyst nhiều kinh nghiệm trong các dự án nội bộ (RMS, TMS, E-Contract). Đam mê phân tích yêu cầu, viết BRD/URD và thiết kế UI/UX bằng Figma, kết nối người dùng với công nghệ.",
    "hero.viewLinkedIn" := "Xem LinkedIn",
    "hero.downloadCV" := "Tải CV"
  ]

  const VietnameseAbout: map<string, string> := map[
    "about.title" := "Giới thiệu",
    "about.shortTerm" := "Mục tiêu ngắn hạn",
    "about.shortTermDesc" := "Phát triển kỹ năng phân tích nghiệp vụ và điều phối trong các dự án CNTT phức tạp",
    "about.longTerm" := "Mục tiêu dài hạn",
    "about.longTermDesc" := "Trở thành Senior Business Analyst/Project Manager kết nối nghiệp vụ và công nghệ",
    "about.keySkills" := "Kỹ năng chính: Thu thập yêu cầu, BRD/URD, Blueprint, thiết kế UI/UX với Figma, Agile/Scrum"
  ]

  const VietnameseExperience: map<string, string> := map[
    "experience.title" := "Kinh nghiệm",
    "experience.present" := "Hiện tại",
    "experience.delfi.role" := "Chuyên viên phân tích nghiệp vụ CNTT",
    "experience.lcs.role" := "Chuyên viên phân tích nghiệp vụ",
    "experience.lcs.desc1" := "Thu thập và làm rõ yêu cầu nghiệp vụ từ các bên liên quan",
    "experience.lcs.desc2" := "Phân tích nhu cầu nghiệp vụ và đề xuất giải pháp (BRD/URD/Blueprint)",
    "experience.lcs.desc3" := "Thiết kế mockup UI cho ứng dụng web & mobile bằng Figma",
    "experience.lcs.desc4" := "Phối hợp với khách hàng & đội phát triển để xác thực giải pháp"
  ]

  const VietnameseProjects: map<string, string> := map[
    "projects.title" := "Dự án",
    "projects.viewDetails" := "Xem chi tiết",
    "projects.mockups.title" := "Mockup dự án",
    "projects.cms.title" := "Hệ thống quản lý hợp đồng (CMS)",
    "projects.cms.company" := "Central Retail Vietnam",
    "projects.cms.role" := "Trợ lý PM / BA",
    "projects.rms.title" := "RMS 2.0 – Hệ thống sửa chữa & bảo trì",
    "projects.rms.company" := "Suntory PepsiCo Vietnam",
    "projects.rms.summary" := "Nền tảng đa chức năng cho MEM xử lý yêu cầu sửa chữa/bảo trì, phụ tùng QR code, đồng bộ SAP"
  ]

  const VietnameseSkills: map<string, string> := map[
    "skills.title" := "Kỹ năng",
    "skills.tools" := "Công cụ & Công nghệ",
    "skills.business" := "Phân tích nghiệp vụ"
  ]

  const VietnameseEducation: map<string, string> := map[
    "education.title" := "Học vấn",
    "education.university" := "HUTECH – Đại học Công nghệ TP.HCM",
    "education.degree" := "Hệ thống thông tin quản lý",
    "education.gpa" := "GPA 3.3/4.0"
  ]

  const VietnameseContact: map<string, string> := map[
    "contact.title" := "Liên hệ",
    "contact.subtitle" := "Hãy cùng hợp tác trong dự án tiếp theo của bạn",
    "contact.email" := "Email",
    "contact.phone" := "Điện thoại",
    "contact.linkedin" := "LinkedIn"
  ]

  const VietnameseSections: seq<map<string, string>> :=
    [VietnameseNavigation, VietnameseHero, VietnameseAbout, VietnameseExperience, VietnameseProjects, VietnameseSkills, VietnameseEducation, VietnameseContact]

  const Vietnamese: map<string, string> := Union(VietnameseSections)

  /** The object-spread union of the sections, later sections last. */
  function Union(sections: seq<map<string, string>>): map<string, string> {
    if |sections| == 0 then map[]
    else Union(sections[..|sections| - 1]) + sections[|sections| - 1]
  }

  function Dictionary(language: Language): map<string, string> {
    match language
    case En => English
    case Vi => Vietnamese
  }

  /** The `LanguageProvider`'s state: the language currently selected. */
  datatype Provider = Provider(language: Language)

  /** The provider on first render. */
  function InitialProvider(): (p: Provider)
    ensures p.language == En
  {
    Provider(En)
  }

  /** `setLanguage`. */
  function SetLanguage(p: Provider, language: Language): (r: Provider)
    ensures r.language == language
  {
    p.(language := language)
  }

  /** The raw JavaScript lookup `translations[language][key] || key`: a
      missing key, or one mapped to the empty string (which is falsy), gives
      back the key. */
  function Lookup(language: Language, key: string): (r: string)
    ensures r == key || (key in Dictionary(language) && r == Dictionary(language)[key] && r != "")
    ensures key !in Dictionary(language) ==> r == key
    ensures key in Dictionary(language) && Dictionary(language)[key] == "" ==> r == key
    ensures key in Dictionary(language) && Dictionary(language)[key] != "" ==> r == Dictionary(language)[key]
  {
    var dict := Dictionary(language);
    if key in dict && dict[key] != "" then dict[key] else key
  }

  /** `t(key)`: the dictionary text when the key is defined in the current
      language, the key itself otherwise. */
  function T(p: Provider, key: string): (r: string)
    ensures key in Dictionary(p.language) ==> r == Dictionary(p.language)[key]
    ensures key !in Dictionary(p.language) ==> r == key
  {
    ValuesNonEmpty(p.language);
    Lookup(p.language, key)
  }

  /** Every value of `m` is a non-empty text. */
  ghost predicate NoEmptyText(m: map<string, string>) {
    forall k :: k in m ==> m[k] != ""
  }

  /** The text the Projects section passes to `t` as if it were a key: the
      CMS project's summary sentence. */
  const CmsSummaryText: string := "Contract management platform with SAP integration for Central Retail Vietnam"

  /** What is checked of each section: its two versions define the same
      keys, no value in either is empty, and neither holds the literal text
      above as a key. */
  ghost predicate SectionChecks(english: map<string, string>, vietnamese: map<string, string>) {
    && english.Keys == vietnamese.Keys
    && NoEmptyText(english)
    && NoEmptyText(vietnamese)
    && CmsSummaryText !in english
    && CmsSummaryText !in vietnamese
  }

  // One lemma per section keeps each proof obligation small.

  lemma NavigationChecks()
    ensures SectionChecks(EnglishNavigation, VietnameseNavigation)
  {
  }

  lemma HeroChecks()
    ensures SectionChecks(EnglishHero, VietnameseHero)
  {
  }

  lemma AboutChecks()
    ensures SectionChecks(EnglishAbout, VietnameseAbout)
  {
  }

  lemma ExperienceChecks()
    ensures SectionChecks(EnglishExperience, VietnameseExperience)
  {
  }

  lemma ProjectsChecks()
    ensures SectionChecks(EnglishProjects, VietnameseProjects)
  {
  }

  lemma SkillsChecks()
    ensures SectionChecks(EnglishSkills, VietnameseSkills)
  {
  }

  lemma EducationChecks()
    ensures SectionChecks(EnglishEducation, VietnameseEducation)
  {
  }

  lemma ContactChecks()
    ensures SectionChecks(EnglishContact, VietnameseContact)
  {
  }

  lemma AllSectionsCheck()
    ensures SectionChecks(EnglishNavigation, VietnameseNavigation)
    ensures SectionChecks(EnglishHero, VietnameseHero)
    ensures SectionChecks(EnglishAbout, VietnameseAbout)
    ensures SectionChecks(EnglishExperience, VietnameseExperience)
    ensures SectionChecks(EnglishProjects, VietnameseProjects)
    ensures SectionChecks(EnglishSkills, VietnameseSkills)
    ensures SectionChecks(EnglishEducation, VietnameseEducation)
    ensures SectionChecks(EnglishContact, VietnameseContact)
  {
    NavigationChecks();
    HeroChecks();
    AboutChecks();
    ExperienceChecks();
    ProjectsChecks();
    SkillsChecks();
    EducationChecks();
    ContactChecks();
  }

  /** Each dictionary is the `+` of its sections, left to right. */
  lemma SectionsJoin()
    ensures English == EnglishNavigation + EnglishHero + EnglishAbout + EnglishExperience + EnglishProjects + EnglishSkills + EnglishEducation + EnglishContact
    ensures Vietnamese == VietnameseNavigation + VietnameseHero + VietnameseAbout + VietnameseExperience + VietnameseProjects + VietnameseSkills + VietnameseEducation + VietnameseContact
  {
    EnglishJoin();
    VietnameseJoin();
  }

  /** One more section on the right is one more `+`. */
  lemma UnionPrefix(sections: seq<map<string, string>>, n: nat)
    requires 0 < n <= |sections|
    ensures Union(sections[..n]) == Union(sections[..n - 1]) + sections[n - 1]
  {
    assert sections[..n][..n - 1] == sections[..n - 1];
  }

  lemma UnionOfEight(sections: seq<map<string, string>>)
    requires |sections| == 8
    ensures Union(sections) == sections[0] + sections[1] + sections[2] + sections[3]
                               + sections[4] + sections[5] + sections[6] + sections[7]
  {
    assert sections[..0] == [];
    assert Union(sections[..1]) == sections[0] by {
      UnionPrefix(sections, 1);
      assert map[] + sections[0] == sections[0];
    }
    UnionPrefix(sections, 2);
    UnionPrefix(sections, 3);
    UnionPrefix(sections, 4);
    UnionPrefix(sections, 5);
    UnionPrefix(sections, 6);
    UnionPrefix(sections, 7);
    UnionPrefix(sections, 8);
    assert sections[..8] == sections;
  }

  lemma EnglishJoin()
    ensures English == EnglishNavigation + EnglishHero + EnglishAbout + EnglishExperience + EnglishProjects + EnglishSkills + EnglishEducation + EnglishContact
  {
    UnionOfEight(EnglishSections);
  }

  lemma VietnameseJoin()
    ensures Vietnamese == VietnameseNavigation + VietnameseHero + VietnameseAbout + VietnameseExperience + VietnameseProjects + VietnameseSkills + VietnameseEducation + VietnameseContact
  {
    UnionOfEight(VietnameseSections);
  }

  lemma UnionNoEmptyText(a: map<string, string>, b: map<string, string>)
    requires NoEmptyText(a) && NoEmptyText(b)
    ensures NoEmptyText(a + b)
  {
  }

  lemma UnionLacks(a: map<string, string>, b: map<string, string>, key: string)
    requires key !in a && key !in b
    ensures key !in a + b
  {
  }

  lemma UnionKeys(a1: map<string, string>, a2: map<string, string>,
                  b1: map<string, string>, b2: map<string, string>)
    requires a1.Keys == b1.Keys && a2.Keys == b2.Keys
    ensures (a1 + a2).Keys == (b1 + b2).Keys
  {
  }

  /** No dictionary maps a key to the empty string, so the `||` fallback
      applies to missing keys only. */
  lemma ValuesNonEmpty(language: Language)
    ensures NoEmptyText(Dictionary(language))
  {
    AllSectionsCheck();
    SectionsJoin();
    UnionNoEmptyText(EnglishNavigation, EnglishHero);
    UnionNoEmptyText(EnglishNavigation + EnglishHero, EnglishAbout);
    UnionNoEmptyText(EnglishNavigation + EnglishHero + EnglishAbout, EnglishExperience);
    UnionNoEmptyText(EnglishNavigation + EnglishHero + EnglishAbout + EnglishExperience, EnglishProjects);
    UnionNoEmptyText(EnglishNavigation + EnglishHero + EnglishAbout + EnglishExperience + EnglishProjects, EnglishSkills);
    UnionNoEmptyText(EnglishNavigation + EnglishHero + EnglishAbout + EnglishExperience + EnglishProjects + EnglishSkills, EnglishEducation);
    UnionNoEmptyText(EnglishNavigation + EnglishHero + EnglishAbout + EnglishExperience + EnglishProjects + EnglishSkills + EnglishEducation, EnglishContact);
    UnionNoEmptyText(VietnameseNavigation, VietnameseHero);
    UnionNoEmptyText(VietnameseNavigation + VietnameseHero, VietnameseAbout);
    UnionNoEmptyText(VietnameseNavigation + VietnameseHero + VietnameseAbout, VietnameseExperience);
    UnionNoEmptyText(VietnameseNavigation + VietnameseHero + VietnameseAbout + VietnameseExperience, VietnameseProjects);
    UnionNoEmptyText(VietnameseNavigation + VietnameseHero + VietnameseAbout + VietnameseExperience + VietnameseProjects, VietnameseSkills);
    UnionNoEmptyText(VietnameseNavigation + VietnameseHero + VietnameseAbout + VietnameseExperience + VietnameseProjects + VietnameseSkills, VietnameseEducation);
    UnionNoEmptyText(VietnameseNavigation + VietnameseHero + VietnameseAbout + VietnameseExperience + VietnameseProjects + VietnameseSkills + VietnameseEducation, VietnameseContact);
  }

  /** Both languages define exactly the same keys. */
  lemma SameKeys()
    ensures English.Keys == Vietnamese.Keys
  {
    AllSectionsCheck();
    SectionsJoin();
    UnionKeys(EnglishNavigation, EnglishHero, VietnameseNavigation, VietnameseHero);
    UnionKeys(EnglishNavigation + EnglishHero, EnglishAbout, VietnameseNavigation + VietnameseHero, VietnameseAbout);
    UnionKeys(EnglishNavigation + EnglishHero + EnglishAbout, EnglishExperience, VietnameseNavigation + VietnameseHero + VietnameseAbout, VietnameseExperience);
    UnionKeys(EnglishNavigation + EnglishHero + EnglishAbout + EnglishExperience, EnglishProjects, VietnameseNavigation + VietnameseHero + VietnameseAbout + VietnameseExperience, VietnameseProjects);
    UnionKeys(EnglishNavigation + EnglishHero + EnglishAbout + EnglishExperience + EnglishProjects, EnglishSkills, VietnameseNavigation + VietnameseHero + VietnameseAbout + VietnameseExperience + VietnameseProjects, VietnameseSkills);
    UnionKeys(EnglishNavigation + EnglishHero + EnglishAbout + EnglishExperience + EnglishProjects + EnglishSkills, EnglishEducation, VietnameseNavigation + VietnameseHero + VietnameseAbout + VietnameseExperience + VietnameseProjects + VietnameseSkills, VietnameseEducation);
    UnionKeys(EnglishNavigation + EnglishHero + EnglishAbout + EnglishExperience + EnglishProjects + EnglishSkills + EnglishEducation, EnglishContact, VietnameseNavigation + VietnameseHero + VietnameseAbout + VietnameseExperience + VietnameseProjects + VietnameseSkills + VietnameseEducation, VietnameseContact);
  }

  /** A key is defined in one language exactly when it is defined in the
      other, so a switch of language never turns a translated text into a
      raw key or the other way round. */
  lemma DefinedInBoth(key: string, one: Language, other: Language)
    ensures key in Dictionary(one) <==> key in Dictionary(other)
  {
    SameKeys();
    KeysAgree(English, Vietnamese, key);
  }

  lemma KeysAgree(a: map<string, string>, b: map<string, string>, key: string)
    requires a.Keys == b.Keys
    ensures key in a <==> key in b
  {
    assert key in a <==> key in a.Keys;
  }

  /** On first render every defined key shows its English text. */
  lemma InitialShowsEnglish(key: string)
    ensures key in English ==> T(InitialProvider(), key) == English[key]
    ensures key !in English ==> T(InitialProvider(), key) == key
  {
  }

  /** `t` depends on the current language and the key only: switching to any
      language and back gives the same texts as before. */
  lemma SwitchBack(p: Provider, other: Language, key: string)
    ensures T(SetLanguage(SetLanguage(p, other), p.language), key) == T(p, key)
  {
  }

  lemma SummaryTextIsNotKey()
    ensures CmsSummaryText !in English && CmsSummaryText !in Vietnamese
  {
    AllSectionsCheck();
    SectionsJoin();
    UnionLacks(EnglishNavigation, EnglishHero, CmsSummaryText);
    UnionLacks(EnglishNavigation + EnglishHero, EnglishAbout, CmsSummaryText);
    UnionLacks(EnglishNavigation + EnglishHero + EnglishAbout, EnglishExperience, CmsSummaryText);
    UnionLacks(EnglishNavigation + EnglishHero + EnglishAbout + EnglishExperience, EnglishProjects, CmsSummaryText);
    UnionLacks(EnglishNavigation + EnglishHero + EnglishAbout + EnglishExperience + EnglishProjects, EnglishSkills, CmsSummaryText);
    UnionLacks(EnglishNavigation + EnglishHero + EnglishAbout + EnglishExperience + EnglishProjects + EnglishSkills, EnglishEducation, CmsSummaryText);
    UnionLacks(EnglishNavigation + EnglishHero + EnglishAbout + EnglishExperience + EnglishProjects + EnglishSkills + EnglishEducation, EnglishContact, CmsSummaryText);
    UnionLacks(VietnameseNavigation, VietnameseHero, CmsSummaryText);
    UnionLacks(VietnameseNavigation + VietnameseHero, VietnameseAbout, CmsSummaryText);
    UnionLacks(VietnameseNavigation + VietnameseHero + VietnameseAbout, VietnameseExperience, CmsSummaryText);
    UnionLacks(VietnameseNavigation + VietnameseHero + VietnameseAbout + VietnameseExperience, VietnameseProjects, CmsSummaryText);
    UnionLacks(VietnameseNavigation + VietnameseHero + VietnameseAbout + VietnameseExperience + VietnameseProjects, VietnameseSkills, CmsSummaryText);
    UnionLacks(VietnameseNavigation + VietnameseHero + VietnameseAbout + VietnameseExperience + VietnameseProjects + VietnameseSkills, VietnameseEducation, CmsSummaryText);
    UnionLacks(VietnameseNavigation + VietnameseHero + VietnameseAbout + VietnameseExperience + VietnameseProjects + VietnameseSkills + VietnameseEducation, VietnameseContact, CmsSummaryText);
  }

  /** The Projects section passes the CMS summary sentence itself where a
      key is expected; it is shown unchanged in both languages. */
  lemma SummaryTextShowsUnchanged(p: Provider)
    ensures T(p, CmsSummaryText) == CmsSummaryText
  {
    SummaryTextIsNotKey();
    var dict := Dictionary(p.language);
    assert CmsSummaryText !in dict by {
      match p.language
      case En =>
      case Vi =>
    }
  }
}

=== FILE: project_mockups.dfy ===
/**
 The `useProjectMockups` hook: the in-memory list of a project's mockups and
 the two busy flags, kept in step with a storage bucket and a metadata table.
 Every remote call is represented by the reply it got (`Outcome`), passed in
 as a parameter, so each operation is a deterministic transition. Each
 operation also reports the remote calls it issued, so that their order and
 their arguments can be stated.
 */
module ProjectMockups {
  import opened Common
  import Decimal

  /** The storage bucket holding the image files. */
  const Bucket: string := "project-mockups"

  /** The metadata table, one row per stored image. */
  const Table: string := "project_mockups"

  /** A row of the metadata table. */
  datatype Mockup = Mockup(
    id: string,
    projectId: string,
    fileName: string,
    filePath: string,
    fileSize: Option<int>,
    mimeType: Option<string>,
    uploadedAt: string)

  /** The columns the hook sends on insert. */
  datatype NewRow = NewRow(projectId: string, fileName: string, filePath: string,
                           fileSize: int, mimeType: string)

  /** The columns the database fills in itself. */
  datatype Stamp = Stamp(id: string, uploadedAt: string)

  /** The row an insert reads back (`.select().single()`). */
  function Inserted(row: NewRow, stamp: Stamp): (m: Mockup)
    ensures m.id == stamp.id && m.projectId == row.projectId
    ensures m.fileName == row.fileName && m.filePath == row.filePath
    ensures m.fileSize == Some(row.fileSize) && m.mimeType == Some(row.mimeType)
    ensures m.uploadedAt == stamp.uploadedAt
  {
    Mockup(stamp.id, row.projectId, row.fileName, row.filePath,
           Some(row.fileSize), Some(row.mimeType), stamp.uploadedAt)
  }

  /** The remote calls the hook makes. */
  datatype Call =
    | DbSelect(table: string, projectId: string)
    | StorageUpload(bucket: string, key: string, file: File)
    | DbInsert(table: string, row: NewRow)
    | StorageRemove(bucket: string, paths: seq<string>)
    | DbDelete(table: string, id: string)

  /** What the remote side holds: the object keys in the bucket and the rows
      of the table. A successful reply means the call took effect. */
  datatype Backend = Backend(objects: set<string>, rows: set<Mockup>)

  /** The hook's state. */
  datatype HookState = HookState(mockups: seq<Mockup>, isUploading: bool, isLoading: bool)

  function Initial(): (s: HookState)
    ensures |s.mockups| == 0 && !s.isUploading && !s.isLoading
  {
    HookState([], false, false)
  }

  // ---------------------------------------------------------------------
  // Storage keys

  /** The object key of an upload: `${projectId}/${Date.now()}_${file.name}`,
      with the clock reading `now` passed in. */
  function StorageKey(projectId: string, now: nat, fileName: string): (key: string)
    ensures projectId + "/" <= key
    ensures |key| > |fileName| && key[|key| - |fileName| - 1..] == "_" + fileName
  {
    var key := projectId + "/" + Decimal.Render(now) + "_" + fileName;
    assert key[|key| - |fileName| - 1..] == "_" + fileName;
    key
  }

  /** The clock reading sits between the project prefix and the file name. */
  lemma StorageKeyMiddle(projectId: string, now: nat, fileName: string)
    ensures var key := StorageKey(projectId, now, fileName);
            key[|projectId| + 1..|key| - |fileName| - 1] == Decimal.Render(now)
  {
  }

  /** Two uploads of the same file name into the same project at different
      clock readings get different keys. */
  lemma StorageKeyDistinguishesTimes(projectId: string, t1: nat, t2: nat, fileName: string)
    requires t1 != t2
    ensures StorageKey(projectId, t1, fileName) != StorageKey(projectId, t2, fileName)
  {
    if StorageKey(projectId, t1, fileName) == StorageKey(projectId, t2, fileName) {
      StorageKeyMiddle(projectId, t1, fileName);
      StorageKeyMiddle(projectId, t2, fileName);
      Decimal.RenderInjective(t1, t2);
    }
  }

  // ---------------------------------------------------------------------
  // Loading

  /** What the select returned: rows (possibly `null`) or an error. */
  type FetchReply = Outcome<Option<seq<Mockup>>>

  datatype FetchResult = FetchResult(state: HookState, calls: seq<Call>)

  /** `fetchMockups`: raise `isLoading`, select the project's rows, replace
      the list on success, log and swallow an error, and lower `isLoading`
      in every case. */
  function FetchMockups(s: HookState, projectId: string, reply: FetchReply): (r: FetchResult)
    ensures r.calls == [DbSelect(Table, projectId)]
    ensures !r.state.isLoading && r.state.isUploading == s.isUploading
    ensures reply.Err? ==> r.state.mockups == s.mockups
    ensures reply == Ok(None) ==> r.state.mockups == []
    ensures reply.Ok? && reply.value.Some? ==> r.state.mockups == reply.value.value
  {
    var loading := s.(isLoading := true);
    var mockups :=
      match reply
      case Err(_) => loading.mockups
      case Ok(None) => []
      case Ok(Some(rows)) => rows;
    FetchResult(loading.(mockups := mockups, isLoading := false), [DbSelect(Table, projectId)])
  }

  /** A second fetch that gets the same answer changes nothing more. */
  lemma FetchIdempotent(s: HookState, projectId: string, reply: FetchReply)
    ensures var once := FetchMockups(s, projectId, reply).state;
            FetchMockups(once, projectId, reply).state == once
  {
  }

  /** The effect hook that runs when `projectId` changes: it loads only for a
      non-empty project id. */
  function OnProjectId(s: HookState, projectId: string, reply: FetchReply): (r: FetchResult)
    ensures projectId == "" ==> r.state == s && r.calls == []
    ensures projectId != "" ==> r == FetchMockups(s, projectId, reply)
  {
    if projectId != "" then FetchMockups(s, projectId, reply)
    else FetchResult(s, [])
  }

  /** On mount the hook starts empty and idle; for a non-empty project id
      the first load leaves exactly the returned rows with both flags down,
      and an error or a `null` answer leaves it empty. */
  lemma MountLoadsRows(projectId: string, reply: FetchReply)
    ensures projectId == "" ==> OnProjectId(Initial(), projectId, reply).state == Initial()
    ensures projectId != "" && reply.Ok? && reply.value.Some? ==>
              OnProjectId(Initial(), projectId, reply).state == HookState(reply.value.value, false, false)
    ensures projectId != "" && !(reply.Ok? && reply.value.Some?) ==>
              OnProjectId(Initial(), projectId, reply).state == Initial()
  {
  }

  // ---------------------------------------------------------------------
  // Uploading

  /** The replies concerning one file: the clock reading taken for its key,
      the storage upload's reply (the stored path) and the insert's reply. */
  datatype FileReplies = FileReplies(now: nat, upload: Outcome<string>, insert: Outcome<Stamp>)

  /** The calls made for one file and what its promise settled to. */
  datatype FileAttempt = FileAttempt(calls: seq<Call>, result: Outcome<Mockup>)

  /** `m` is the row recorded for `file` of project `projectId`: it points at
      the path the storage returned and carries the id the database gave. */
  predicate Describes(m: Mockup, projectId: string, file: File, rep: FileReplies) {
    && rep.upload.Ok? && rep.insert.Ok?
    && m.projectId == projectId
    && m.fileName == file.name
    && m.filePath == rep.upload.value
    && m.fileSize == Some(file.size as int)
    && m.mimeType == Some(file.mimeType)
    && m.id == rep.insert.value.id
    && m.uploadedAt == rep.insert.value.uploadedAt
  }

  /** The replies for one file end in error `e`: the upload's, or, after a
      successful upload, the insert's. */
  predicate FailedWith(rep: FileReplies, e: StoreError) {
    rep.upload == Err(e) || (rep.upload.Ok? && rep.insert == Err(e))
  }

  /** The body of the per-file async callback: upload, and only after a
      successful upload, insert the metadata row pointing at the stored path. */
  function UploadOne(projectId: string, file: File, rep: FileReplies): (a: FileAttempt)
    ensures 1 <= |a.calls| <= 2
    ensures a.calls[0] == StorageUpload(Bucket, StorageKey(projectId, rep.now, file.name), file)
    ensures |a.calls| == 2 <==> rep.upload.Ok?
    ensures rep.upload.Ok? ==>
              a.calls[1] == DbInsert(Table, NewRow(projectId, file.name, rep.upload.value, file.size, file.mimeType))
    ensures a.result.Ok? <==> rep.upload.Ok? && rep.insert.Ok?
    ensures rep.upload.Err? ==> a.result == Err(rep.upload.error)
    ensures rep.upload.Ok? && rep.insert.Err? ==> a.result == Err(rep.insert.error)
    ensures a.result.Ok? ==> Describes(a.result.value, projectId, file, rep)
  {
    var upload := StorageUpload(Bucket, StorageKey(projectId, rep.now, file.name), file);
    match rep.upload
    case Err(e) => FileAttempt([upload], Err(e))
    case Ok(path) =>
      var row := NewRow(projectId, file.name, path, file.size, file.mimeType);
      var calls := [upload, DbInsert(Table, row)];
      match rep.insert
      case Err(e) => FileAttempt(calls, Err(e))
      case Ok(stamp) => FileAttempt(calls, Ok(Inserted(row, stamp)))
  }

  /** `Promise.all`: every value in input order when all promises fulfil,
      otherwise a rejection with the error of a failed one. */
  function All(results: seq<Outcome<Mockup>>): (r: Outcome<seq<Mockup>>)
    ensures r.Ok? <==> forall i :: 0 <= i < |results| ==> results[i].Ok?
    ensures r.Ok? ==> |r.value| == |results|
    ensures r.Ok? ==> forall i :: 0 <= i < |results| ==> r.value[i] == results[i].value
    ensures r.Err? ==> exists i :: 0 <= i < |results| && results[i] == Err(r.error)
  {
    if |results| == 0 then Ok([])
    else
      match results[0]
      case Err(e) => Err(e)
      case Ok(m) =>
        match All(results[1..])
        case Err(e) => Err(e)
        case Ok(ms) => Ok([m] + ms)
  }

  datatype UploadResult = UploadResult(
    state: HookState,
    backend: Backend,
    calls: seq<seq<Call>>,
    outcome: Outcome<seq<Mockup>>)

  /** `uploadMockups(files)`: all files are attempted concurrently; the list
      grows only when every file succeeded; nothing already stored is undone
      on failure; `isUploading` is lowered in every case. `replies[i]` holds
      what the remote side answered for `files[i]`, and `calls[i]` lists the
      calls made for it (calls for different files may interleave). */
  function UploadMockups(s: HookState, b: Backend, projectId: string,
                         files: seq<File>, replies: seq<FileReplies>): (r: UploadResult)
    requires |replies| == |files|
    ensures !r.state.isUploading && r.state.isLoading == s.isLoading
    ensures |r.calls| == |files|
    ensures forall i :: 0 <= i < |files| ==>
              r.calls[i] == UploadOne(projectId, files[i], replies[i]).calls
    ensures r.outcome.Ok? <==>
              forall i :: 0 <= i < |files| ==> replies[i].upload.Ok? && replies[i].insert.Ok?
    ensures r.outcome.Ok? ==>
              && r.state.mockups == s.mockups + r.outcome.value
              && |r.outcome.value| == |files|
              && forall i :: 0 <= i < |files| ==>
                   Describes(r.outcome.value[i], projectId, files[i], replies[i])
    ensures r.outcome.Err? ==>
              && r.state.mockups == s.mockups
              && exists i :: 0 <= i < |files| && FailedWith(replies[i], r.outcome.error)
    ensures b.objects <= r.backend.objects && b.rows <= r.backend.rows
    ensures forall i :: 0 <= i < |files| && replies[i].upload.Ok? ==>
              replies[i].upload.value in r.backend.objects
    ensures r.outcome.Ok? ==> forall i :: 0 <= i < |r.outcome.value| ==> r.outcome.value[i] in r.backend.rows
    ensures forall i :: 0 <= i < |files| && replies[i].upload.Ok? && replies[i].insert.Ok? ==>
              UploadOne(projectId, files[i], replies[i]).result.value in r.backend.rows
    ensures forall k :: k in r.backend.objects ==>
              k in b.objects || exists i :: 0 <= i < |files| && replies[i].upload == Ok(k)
    ensures forall m :: m in r.backend.rows ==>
              m in b.rows || exists i :: 0 <= i < |files| && Describes(m, projectId, files[i], replies[i])
  {
    var attempts := Attempts(projectId, files, replies);
    var outcome := Settle(projectId, files, replies);
    var mockups := if outcome.Ok? then s.mockups + outcome.value else s.mockups;
    var busy := s.(isUploading := true);
    UploadResult(busy.(mockups := mockups, isUploading := false),
                 Persist(b, attempts, replies),
                 seq(|files|, i requires 0 <= i < |files| => attempts[i].calls),
                 outcome)
  }

  /** What `await Promise.all(uploadPromises)` settles to: every file's
      mockup in file order, or the error of a file that failed. */
  function Settle(projectId: string, files: seq<File>, replies: seq<FileReplies>): (o: Outcome<seq<Mockup>>)
    requires |replies| == |files|
    ensures o.Ok? <==> forall i :: 0 <= i < |files| ==> replies[i].upload.Ok? && replies[i].insert.Ok?
    ensures o.Ok? ==> |o.value| == |files|
    ensures o.Ok? ==> forall i :: 0 <= i < |files| ==> Describes(o.value[i], projectId, files[i], replies[i])
    ensures o.Ok? ==> forall i :: 0 <= i < |files| ==> UploadOne(projectId, files[i], replies[i]).result == Ok(o.value[i])
    ensures o.Err? ==> exists i :: 0 <= i < |files| && FailedWith(replies[i], o.error)
  {
    var attempts := Attempts(projectId, files, replies);
    var results := Results(attempts);
    var outcome := All(results);
    assert forall i :: 0 <= i < |files| ==>
             results[i] == UploadOne(projectId, files[i], replies[i]).result;
    assert outcome.Err? ==> exists i :: 0 <= i < |files| && FailedWith(replies[i], outcome.error) by {
      if outcome.Err? {
        var i :| 0 <= i < |results| && results[i] == Err(outcome.error);
        assert results[i] == UploadOne(projectId, files[i], replies[i]).result;
      }
    }
    outcome
  }

  /** The per-file callbacks, one per file, in input order. */
  function Attempts(projectId: string, files: seq<File>, replies: seq<FileReplies>): (a: seq<FileAttempt>)
    requires |replies| == |files|
    ensures |a| == |files|
    ensures forall i :: 0 <= i < |files| ==> a[i] == UploadOne(projectId, files[i], replies[i])
  {
    seq(|files|, i requires 0 <= i < |files| => UploadOne(projectId, files[i], replies[i]))
  }

  function Results(attempts: seq<FileAttempt>): (r: seq<Outcome<Mockup>>)
    ensures |r| == |attempts|
    ensures forall i :: 0 <= i < |attempts| ==> r[i] == attempts[i].result
  {
    seq(|attempts|, i requires 0 <= i < |attempts| => attempts[i].result)
  }

  /** What the remote side holds after the attempts: every successfully
      uploaded object and every successfully inserted row is added, and
      nothing else. */
  function Persist(b: Backend, attempts: seq<FileAttempt>, replies: seq<FileReplies>): (r: Backend)
    requires |replies| == |attempts|
    ensures b.objects <= r.objects && b.rows <= r.rows
    ensures forall i :: 0 <= i < |replies| && replies[i].upload.Ok? ==> replies[i].upload.value in r.objects
    ensures forall i :: 0 <= i < |attempts| && attempts[i].result.Ok? ==> attempts[i].result.value in r.rows
    ensures forall k :: k in r.objects ==>
              k in b.objects || exists i :: 0 <= i < |replies| && replies[i].upload == Ok(k)
    ensures forall m :: m in r.rows ==>
              m in b.rows || exists i :: 0 <= i < |attempts| && attempts[i].result == Ok(m)
  {
    var stored := set i | 0 <= i < |replies| && replies[i].upload.Ok? :: replies[i].upload.value;
    var inserted := set i | 0 <= i < |attempts| && attempts[i].result.Ok? :: attempts[i].result.value;
    Backend(b.objects + stored, b.rows + inserted)
  }

  /** For every file the first call is the storage upload under the file's
      key, and a metadata insert is made only as the second call, only after
      that upload succeeded, and records the project, the file's name and
      the path the storage returned. */
  lemma UploadCallOrder(s: HookState, b: Backend, projectId: string,
                        files: seq<File>, replies: seq<FileReplies>)
    requires |replies| == |files|
    ensures var calls := UploadMockups(s, b, projectId, files, replies).calls;
            forall i :: 0 <= i < |files| ==>
              && 1 <= |calls[i]|
              && calls[i][0] == StorageUpload(Bucket, StorageKey(projectId, replies[i].now, files[i].name), files[i])
    ensures var calls := UploadMockups(s, b, projectId, files, replies).calls;
            forall i, j :: 0 <= i < |files| && 0 <= j < |calls[i]| && calls[i][j].DbInsert? ==>
              && j == 1
              && replies[i].upload.Ok?
              && calls[i][j].row == NewRow(projectId, files[i].name, replies[i].upload.value,
                                           files[i].size, files[i].mimeType)
  {
  }

  /** A failed upload leaves behind the objects of the files whose upload
      did succeed: with two files where the first goes through and the
      second's insert fails, the call fails yet the first file stays stored. */
  lemma PartialFailureKeepsStoredObject(s: HookState, b: Backend, projectId: string,
                                        f1: File, f2: File, ok: FileReplies, bad: FileReplies)
    requires ok.upload.Ok? && ok.insert.Ok?
    requires bad.upload.Ok? && bad.insert.Err?
    ensures var r := UploadMockups(s, b, projectId, [f1, f2], [ok, bad]);
            && r.outcome.Err?
            && r.state.mockups == s.mockups
            && ok.upload.value in r.backend.objects
            && bad.upload.value in r.backend.objects
            && UploadOne(projectId, f1, ok).result.value in r.backend.rows
  {
    var r := UploadMockups(s, b, projectId, [f1, f2], [ok, bad]);
    assert [ok, bad][1] == bad;
  }

  /** The hook applies no type or capacity filter of its own: a plain text
      file is uploaded and recorded like an image. */
  lemma NonImageFileIsStored(s: HookState, b: Backend, projectId: string, rep: FileReplies)
    requires rep.upload.Ok? && rep.insert.Ok?
    ensures var f := File("notes.txt", "text/plain", 3);
            var r := UploadMockups(s, b, projectId, [f], [rep]);
            && r.calls[0][0] == StorageUpload(Bucket, StorageKey(projectId, rep.now, f.name), f)
            && r.outcome.Ok?
            && |r.state.mockups| == |s.mockups| + 1
            && r.state.mockups[|s.mockups|].mimeType == Some("text/plain")
  {
  }

  // ---------------------------------------------------------------------
  // Deleting

  datatype DeleteResult = DeleteResult(
    state: HookState,
    backend: Backend,
    calls: seq<Call>,
    outcome: Outcome<()>)

  /** The filter's test: keep an entry whose id differs from `mockupId`. */
  function OtherId(mockupId: string): Mockup -> bool {
    (m: Mockup) => m.id != mockupId
  }

  /** The list without the entries whose id is `mockupId`. */
  function WithoutId(mockups: seq<Mockup>, mockupId: string): (r: seq<Mockup>)
    ensures forall m :: m in r <==> m in mockups && m.id != mockupId
  {
    var keep := OtherId(mockupId);
    forall m ensures m in Filter(mockups, keep) <==> m in mockups && keep(m) {
      FilterMembership(mockups, keep, m);
    }
    Filter(mockups, keep)
  }

  /** Removing by id keeps the remaining entries in their order. */
  lemma WithoutIdConcat(a: seq<Mockup>, b: seq<Mockup>, mockupId: string)
    ensures WithoutId(a + b, mockupId) == WithoutId(a, mockupId) + WithoutId(b, mockupId)
  {
    FilterConcat(a, b, OtherId(mockupId));
  }

  /** An id that no entry carries leaves the list as it was. */
  lemma WithoutAbsentId(mockups: seq<Mockup>, mockupId: string)
    requires forall i :: 0 <= i < |mockups| ==> mockups[i].id != mockupId
    ensures WithoutId(mockups, mockupId) == mockups
  {
    FilterKeepsAll(mockups, OtherId(mockupId));
  }

  /** `deleteMockup(mockupId, filePath)`: remove the object, and only if that
      succeeded remove the row; drop the entry from the list only when both
      succeeded; re-throw the first error. */
  function DeleteMockup(s: HookState, b: Backend, mockupId: string, filePath: string,
                        storageReply: Outcome<()>, dbReply: Outcome<()>): (r: DeleteResult)
    ensures 1 <= |r.calls| && r.calls[0] == StorageRemove(Bucket, [filePath])
    ensures r.state.isUploading == s.isUploading && r.state.isLoading == s.isLoading
    ensures storageReply.Err? ==>
              r.calls == [StorageRemove(Bucket, [filePath])] &&
              r.outcome == Err(storageReply.error) && r.state == s && r.backend == b
    ensures storageReply.Ok? ==>
              r.calls == [StorageRemove(Bucket, [filePath]), DbDelete(Table, mockupId)] &&
              r.backend.objects == b.objects - {filePath}
    ensures storageReply.Ok? && dbReply.Err? ==>
              r.outcome == Err(dbReply.error) && r.state == s && r.backend.rows == b.rows
    ensures r.outcome.Ok? <==> storageReply.Ok? && dbReply.Ok?
    ensures r.outcome.Ok? ==> r.state.mockups == WithoutId(s.mockups, mockupId)
    ensures r.outcome.Ok? ==>
              (forall m :: m in r.state.mockups <==> m in s.mockups && m.id != mockupId) &&
              (forall m :: m in r.backend.rows <==> m in b.rows && m.id != mockupId)
  {
    var remove := StorageRemove(Bucket, [filePath]);
    match storageReply
    case Err(e) => DeleteResult(s, b, [remove], Err(e))
    case Ok(_) =>
      var afterStorage := b.(objects := b.objects - {filePath});
      var calls := [remove, DbDelete(Table, mockupId)];
      match dbReply
      case Err(e) => DeleteResult(s, afterStorage, calls, Err(e))
      case Ok(_) =>
        var rows := set m | m in b.rows && m.id != mockupId;
        DeleteResult(s.(mockups := WithoutId(s.mockups, mockupId)),
                     afterStorage.(rows := rows), calls, Ok(()))
  }

  /** On success, exactly the entries with the deleted id leave the list and
      the others keep their relative order. */
  lemma DeleteKeepsOthersInOrder(s: HookState, b: Backend, mockupId: string, filePath: string,
                                 before: seq<Mockup>, gone: Mockup, after: seq<Mockup>)
    requires s.mockups == before + [gone] + after
    requires gone.id == mockupId
    requires forall i :: 0 <= i < |before| ==> before[i].id != mockupId
    requires forall i :: 0 <= i < |after| ==> after[i].id != mockupId
    ensures DeleteMockup(s, b, mockupId, filePath, Ok(()), Ok(())).state.mockups == before + after
  {
    var keep := OtherId(mockupId);
    FilterConcat(before + [gone], after, keep);
    FilterConcat(before, [gone], keep);
    FilterKeepsAll(before, keep);
    FilterKeepsAll(after, keep);
    assert Filter([gone], keep) == [] by {
      assert !keep(gone);
      assert [gone][1..] == [];
    }
    assert Filter(s.mockups, keep) == before + after;
  }
}
